=== FILE: README.md ===
# Reversible commands and a single worker queue, in Dafny

This project models the command and undo layer of a set of Java exercises, together with the worker thread that serves their task queue, and proves properties of the model.

- **Person registry** (`Pr5/Task2`, `Pr6/Task2`).
  - An `AddPersonCommand` appends a person to a shared list and pushes itself on a `CommandHistory` stack.
  - Its undo removes the person with `List.remove(Object)`. `Person` does not override `equals`, so that is the first occurrence of the same object.
  - A `MacroCommand` executes its children forwards and undoes them backwards.
  - `undoLastCommand` pops the top of the history and undoes it.
  - The age analysis takes the minimum and maximum age.
- **Calculator** (`Pr5/Task1`). A `CommandManager` keeps a history of executed commands and, in lock-step, a list of their results.
- **Results manager** (`Pr5/Task3`, `Pr6/Task3`).
  - Formatted result strings are kept in a list and pushed on a parallel undo stack.
  - Undo pops a string and removes the first equal string from the list.
  - Results can be printed as a table or one per line.
  - A character filter strips each result down to digits and dots before number parsing.
  - A macro runs a list of actions.
- **Worker** (`Pr6/Task2`, `Pr6/Task3`). One background thread takes tasks from a FIFO queue until a stop flag is set.
  - The registry's loop (`while (!isStopped)`) stops taking tasks as soon as the flag is set.
  - The results manager's loop (`while (!isStopped || !queue.isEmpty())`) first drains the queue.
  - Both loops catch only `InterruptedException`. A task that throws any unchecked exception ends the worker thread, and the tasks still queued never run.

Modules:

- `JavaList` (`java_list.dfy`): `List.remove(Object)`, `indexOf`, `lastIndexOf` and removal at the last index, over sequences. A `java.util.Stack` is a sequence whose top is its last element.
- `Actions` (`actions.dfy`): running actions that return normally one after the other. The action macro and the worker queue both do this.
- `Persons` (`persons.dfy`): `Person` is a class, so equality is identity. It has an optional position, for `Employee`. The module also holds the shared list and the minimum and maximum age.
- `PersonCommands` (`person_commands.dfy`):
  - the command datatype, and `Execute` and `Undo` as recursive methods on the shared list;
  - the `CommandHistory` class;
  - a value-level `Session` (list plus history) with the undo laws.
- `Computations` (`computations.dfy`): the calculator's commands, `CommandManager` as a class, and its value-level `Ledger`.
- `Worker` (`worker.dfy`):
  - tasks that return normally or throw, and `RunQueue`, which runs a queue until a task throws;
  - both worker loops as step functions over a `WorkerState`;
  - the classes `TakeWorker` and `PollWorker`, whose `Run` methods are proved against those functions.
- `ResultsLog` (`results_log.dfy`): the results manager class, the displays, the value filter, the analysis task on the worker and the action macro.

A task or action (a `Runnable`) is a function from an abstract world state to the next one. Running it is applying it. A task on the worker's queue may instead throw: it is then a function to `Option`, and `None` stands for an unchecked exception.

## Model

| member | source | states |
|---|---|---|
| JavaList.RemoveFirst | Pr6/Task2/SerializationWithUndo.java:35 | removing an absent element changes nothing; otherwise exactly the first equal element is gone, the part before it and the part after it are kept, and the multiset loses one copy of the element |
| JavaList.RemoveFirstOfAppended | Pr6/Task2/SerializationWithUndo.java:28-36 | removing an element just appended, when it was not in the list before, gives back the list as it was |
| JavaList.RemoveFirstTakesEarliest | Pr6/Task3/CalculationResults.java:70 | with an earlier copy present, `remove` deletes that earlier copy and not the one appended last |
| Persons.Person.constructor | Pr5/Task2/SerializationWithUndo.java:88-106 | a person (or an employee, with a position) keeps the name, age and position it was built with |
| Persons.PersonList.constructor | Pr6/Task2/SerializationWithUndo.java:118 | the shared list starts empty |
| Persons.MinAge | Pr6/Task2/SerializationWithUndo.java:211-217 | absent exactly for an empty list; otherwise the age of some member, and no member is younger |
| Persons.MaxAge | Pr6/Task2/SerializationWithUndo.java:212-217 | absent exactly for an empty list; otherwise the age of some member, and no member is older |
| PersonCommands.Execute | Pr5/Task2/SerializationWithUndo.java:25-47 | the list gains exactly the persons the command adds, at the end and in child order, and the history gains exactly the AddPerson commands it runs; nothing else changes |
| PersonCommands.Undo | Pr5/Task2/SerializationWithUndo.java:30-53 | the list becomes the one the undo specification gives: an AddPerson removes the first occurrence of its person, and a macro undoes its children from the last to the first |
| PersonCommands.RecordedAddsTheSame | Pr5/Task2/SerializationWithUndo.java:25-47 | what execute pushes consists only of AddPerson commands (a macro is never pushed), and together they add exactly the persons the command adds |
| PersonCommands.RecordedAllAddsTheSame | Pr5/Task2/SerializationWithUndo.java:43-47 | the same for the children of a macro, taken in order |
| PersonCommands.MacroPushesItsChildren | Pr5/Task2/SerializationWithUndo.java:27-47 | a macro of n AddPerson commands pushes exactly those n commands, in order |
| PersonCommands.CommandHistory.constructor | Pr5/Task2/SerializationWithUndo.java:59 | the history starts empty |
| PersonCommands.CommandHistory.AddCommand | Pr5/Task2/SerializationWithUndo.java:70-72 | pushes the command on top, the rest of the stack unchanged |
| PersonCommands.CommandHistory.UndoLastCommand | Pr5/Task2/SerializationWithUndo.java:74-78 | an empty history leaves the list and the history unchanged; otherwise exactly the top command is popped and undone, and the rest of the stack is kept |
| PersonCommands.UndoIsInverse | Pr5/Task2/SerializationWithUndo.java:25-32 | when the persons a command adds are distinct objects not already in the list, executing it and then undoing it restores the list exactly |
| PersonCommands.UndoAllIsInverse | Pr5/Task2/SerializationWithUndo.java:43-53 | the same for a macro: forward execution followed by backward undo restores the list |
| PersonCommands.ExecuteThenUndoLast | Pr6/Task2/SerializationWithUndo.java:28-62 | adding a person not yet in the list and then undoing the last command restores both the list and the history |
| PersonCommands.HistoryIsLifo | Pr6/Task2/SerializationWithUndo.java:53-62 | after three adds on an empty history, three undos take back the third, second and first add in that order, and a fourth undo changes nothing |
| PersonCommands.UndoLastRecorded | Pr5/Task2/SerializationWithUndo.java:74-78 | one undo after a run of pushed AddPerson commands takes back exactly the last of them, when the persons were distinct and not already in the list |
| PersonCommands.UndoRecordedOneByOne | Pr5/Task2/SerializationWithUndo.java:74-78 | as many undos as AddPerson commands were pushed restore the list and the history, when the persons were fresh |
| PersonCommands.ExecuteThenUndoAll | Pr5/Task2/SerializationWithUndo.java:25-78 | after any command, macros included, as many undos as it pushed commands restore the list and the history, when the persons it adds are distinct and new |
| Computations.ComputationCommand.constructor | Pr5/Task1/Main.java:57-59 | a command records the value its computation will produce, and its result is 0 until it is executed |
| Computations.ComputationCommand.Execute | Pr5/Task1/Main.java:61-64 | afterwards the command's result is the value its computation produced |
| Computations.Execute | Pr5/Task1/Main.java:108-112 | after executing a command, every computation in it, inside macros at any depth, holds its computed value |
| Computations.GetResult | Pr5/Task1/Main.java:70-72 | once a computation command has been executed, getResult returns its computed value; a macro returns 0 (Pr5/Task1/Main.java:120-122) |
| Computations.CommandManager.constructor | Pr5/Task1/Main.java:128-129 | history and results start empty and of equal length |
| Computations.CommandManager.ExecuteCommand | Pr5/Task1/Main.java:140-145 | every computation in the command now holds its computed value; the command is pushed and its result appended (0 for a macro); the two lists keep equal lengths |
| Computations.CommandManager.UndoLastCommand | Pr5/Task1/Main.java:147-157 | reports whether there was a command; an empty history changes nothing; otherwise both lists lose their last entry and keep the prefix; equal lengths are preserved |
| Computations.ExecuteAllRecords | Pr5/Task1/Main.java:140-145 | executing a sequence of commands pushes them in order and appends their results in the same order |
| Computations.UndoNTruncates | Pr5/Task1/Main.java:147-157 | n undos leave the first max(size - n, 0) entries of both lists |
| Computations.ExecuteThenUndoKeepsPrefix | Pr5/Task1/Main.java:140-157 | after k executes and j <= k undos, the results are the earlier ones followed by the values of the first k - j commands |
| Actions.RunAllInSubmissionOrder | Pr6/Task2/SerializationWithUndo.java:97-101 | running the queued tasks runs each exactly once, in submission order: tasks that log their own tag leave exactly the tags, in order |
| Worker.RunQueue | Pr6/Task3/CalculationResults.java:106-117 | the tasks left after a run are a suffix of the queue, and they are all gone unless a task threw |
| Worker.RunQueueWhenAllReturn | Pr6/Task3/CalculationResults.java:106-117 | when every task returns normally on the world the tasks before it left, the whole queue runs in order, with the same effect as applying the tasks one after the other; a task may throw on worlds the run does not reach |
| Worker.RunQueueStopsAtThrow | Pr6/Task3/CalculationResults.java:106-117 | when the tasks before position k return on the worlds they meet and the task at k throws on the world they leave, exactly those k tasks run, and the tasks after position k are left unrun |
| Worker.TakeStep | Pr6/Task2/SerializationWithUndo.java:98-104 | a turn exits exactly when the flag is set or a task has thrown, and then changes nothing; an empty queue changes nothing; otherwise the head task is removed and run, and if it throws, the thread ends with the world unchanged |
| Worker.PollStep | Pr6/Task3/CalculationResults.java:107-115 | a turn exits exactly when a task has thrown, or when the worker is stopped and the queue is empty; a poll that finds no task changes nothing; otherwise the head task is removed and run, whether or not the worker is stopped, and if it throws, the thread ends |
| Worker.StoppedTakeWorkerRunsNothing | Pr6/Task2/SerializationWithUndo.java:98-111 | once stopped or ended by a throwing task, the registry's worker runs no further task however many turns follow, and the queued tasks stay queued |
| Worker.CrashedPollWorkerRunsNothing | Pr6/Task3/CalculationResults.java:106-115 | once a task has thrown, the results worker runs nothing more, stopped or not, and the queued tasks stay queued |
| Worker.TakeWorkerRunsInOrder | Pr6/Task2/SerializationWithUndo.java:97-106 | a running worker runs the queue from the head in submission order, until the queue is empty or a task throws |
| Worker.PollWorkerDrains | Pr6/Task3/CalculationResults.java:106-121 | the results worker runs the queued tasks in submission order, whether or not it was stopped, until the queue is empty or a task throws; a stopped or ended worker then leaves its loop |
| Worker.PollWorkerDrainsAll | Pr6/Task3/CalculationResults.java:106-121 | when no task throws on the world it meets, the results worker empties its queue and applies every task in order, stopped or not |
| Worker.PollWorkerStopsAtThrow | Pr6/Task3/CalculationResults.java:106-117 | even a stopped results worker does not drain past a task that throws on the world it meets: the thread ends there, the tasks behind it stay queued, and the loop exits |
| Worker.TakeWorker.constructor | Pr6/Task2/SerializationWithUndo.java:93-95 | a new worker has an empty queue, a clear flag and a live thread |
| Worker.TakeWorker.Submit | Pr6/Task2/SerializationWithUndo.java:177 | the task is appended at the tail of the queue; nothing else changes |
| Worker.TakeWorker.StopWorker | Pr6/Task2/SerializationWithUndo.java:109-112 | only the stop flag changes |
| Worker.TakeWorker.Iterate | Pr6/Task2/SerializationWithUndo.java:98-104 | the new state and the outcome are those of one turn of the loop |
| Worker.TakeWorker.Run | Pr6/Task2/SerializationWithUndo.java:97-106 | a stopped or ended worker exits with its state untouched; a running one runs the queue as `RunQueue` does: in order until empty, or up to the first task that throws; it exits exactly when stopped or ended |
| Worker.PollWorker.constructor | Pr6/Task3/CalculationResults.java:93-96 | a new worker has an empty queue, a clear flag and a live thread |
| Worker.PollWorker.AddTask | Pr6/Task3/CalculationResults.java:98-104 | the task is appended at the tail of the queue; nothing else changes |
| Worker.PollWorker.StopWorker | Pr6/Task3/CalculationResults.java:119-121 | only the stop flag changes |
| Worker.PollWorker.Iterate | Pr6/Task3/CalculationResults.java:107-115 | the new state and the outcome are those of one turn of the loop |
| Worker.PollWorker.Run | Pr6/Task3/CalculationResults.java:106-117 | the queue runs as `RunQueue` does, stopped or not: in order until empty, or up to the first task that throws, leaving the rest queued; the worker exits exactly when it was stopped or a task threw |
| ResultsLog.ResultsManager.constructor | Pr5/Task3/CalculationResults.java:76-77 | both collections start empty |
| ResultsLog.ResultsManager.AddResult | Pr5/Task3/CalculationResults.java:88-91 | the string is appended to the results and pushed on the stack; the two collections remain equal as multisets |
| ResultsLog.ResultsManager.UndoLastOperation | Pr5/Task3/CalculationResults.java:93-100 | reports nothing to undo exactly when the stack is empty, and then changes nothing; otherwise pops the top string and removes the first equal result, so the list shrinks by one; the collections remain equal as multisets and hence of equal length |
| ResultsLog.ResultsManager.DisplayTable | Pr5/Task3/CalculationResults.java:102-114 | no results gives only the "no results" line; otherwise border, header and border, then every result in order, then a closing border |
| ResultsLog.ResultsManager.DisplayPlain | Pr6/Task3/CalculationResults.java:77-79 | prints every result, in order, one per line |
| ResultsLog.KeepValueChars | Pr6/Task3/CalculationResults.java:83 | only digits and dots remain, each digit and the dot as often as in the input, and a string of only such characters is unchanged |
| ResultsLog.KeepValueCharsAppend | Pr6/Task3/CalculationResults.java:83 | the filter keeps the order: the filtered concatenation is the concatenation of the filtered parts |
| ResultsLog.Trim | Pr6/Task3/CalculationResults.java:83 | the result is a contiguous slice of the input that neither starts nor ends with a character up to a space, and everything cut off before and after it is such a character; a string without such characters is unchanged |
| ResultsLog.ValueText | Pr6/Task3/CalculationResults.java:83 | the text handed to the number parser is exactly the filtered string, so trimming never removes anything |
| ResultsLog.FilteredRowIsNoDecimal | Pr6/Task3/CalculationResults.java:83 | for a formatted row whose three numbers each contain a dot, the parser receives at least three dots, which is not a number |
| ResultsLog.ResultColumnOfRow | Pr6/Task3/CalculationResults.java:83 | taking the last column of a formatted row gives exactly the result number, sign included |
| ResultsLog.AnalysisRejectsRow | Pr6/Task3/CalculationResults.java:158-163 | the analysis task returns on an empty results list, and throws once the list holds a formatted row whose three numbers each contain a dot |
| ResultsLog.ThrowingAnalysisEndsWorker | Pr6/Task3/CalculationResults.java:106-117 | with analysis, add, analysis, add queued on an empty list, an analysis that returns on the empty list but throws once the row is added ends the thread at the second analysis, stopped or not; the row is recorded and the last add stays queued |
| ResultsLog.UndoRemovesOlderCopy | Pr6/Task3/CalculationResults.java:70 | after adding x, then y, then x again, undo leaves [y, x] and not the earlier [x, y] |
| JavaList.RemoveLast | Pr6/Task3/CalculationResults.java:70 | removing the newest equal element: an absent element changes nothing; otherwise exactly the element at the last index of x is gone, the parts before and after it are kept, and the multiset loses one copy |
| ResultsLog.NewestRemovalUndoesAdd | Pr6/Task3/CalculationResults.java:70 | removing the newest copy undoes the last add exactly, duplicates or not |
| ResultsLog.ActionMacro.constructor | Pr5/Task3/CalculationResults.java:119 | a macro starts with no actions |
| ResultsLog.ActionMacro.AddCommand | Pr5/Task3/CalculationResults.java:121-123 | appends the action at the end |
| ResultsLog.ActionMacro.Execute | Pr5/Task3/CalculationResults.java:125-129 | the result is that of running every added action once, in insertion order |

## Left out

- Threads: `Thread` subclassing, `volatile` visibility, `interrupt()`, `join`, `Collections.synchronizedList`, `parallelStream` and the blocking or timed waits in `take` and `poll`. The worker is modelled sequentially; a wait on an empty queue is a turn that changes nothing, and interleaving with the producer is not modelled.
- Worker.TakeWorker.Run and Worker.PollWorker.Run stop where the real loop would wait for more tasks. Tasks submitted later are a further `Run`.
- Actions.RunAll and ResultsLog.ActionMacro.Execute: the actions of the `Pr5/Task3` macro are modelled as returning normally. An exception from one of them would reach the caller of `execute` and skip the later actions.
- Worker.PollWorker.Run, Worker.TakeWorker.Run and Worker.PollWorkerDrains: what a task throws is not modelled beyond the fact that it threw. The uncaught-exception handler's stack trace is not modelled, and neither is `join` in `Pr6/Task3` returning early because the thread has already ended.
- All `double` arithmetic: the four computations, the division guard, the averages, and the value `Double.parseDouble` computes in `getResultValues`. Which strings of digits and dots it accepts is stated by `ResultsLog.ParsesAsDecimal`. Command results are abstract `real` values with no arithmetic on them. Formatting with `%8.2f` is represented by the already formatted fields of `ResultsLog.FormatRow`.
- `ComputationCommand.undo` (`compute(-result)`, Pr5/Task1/Main.java:66-68) is floating-point arithmetic on the computation's own field. Nothing reads that field before the next `compute()` overwrites it, so undoing a command, and the reverse order of a macro's undo (Pr5/Task1/Main.java:114-118), has no modelled effect. Computations.CommandManager.UndoLastCommand does not call it.
- Console menus, `Scanner` input and printing of messages. The two undo messages are the `UndoReport` result, and the display methods return their lines.
- Java object serialization: saving and loading the person list, the `transient` password, and the stale list reference that remains in commands after a load reassigns the list.
- Lazy singletons (`getInstance`): the history, manager and worker are explicit objects.
- A macro is a value built from its children, so a macro that contains itself is not represented. `MacroCommand.addCommand` is the construction of that value.
- The average age in the age analysis is floating point and is not modelled.

## Findings

| source | as written | input that shows it | evidently intended | confidence | as-written member | corrected member |
|---|---|---|---|---|---|---|
| Pr6/Task3/CalculationResults.java:70 | undo removes the first result equal to the popped string | add "A", add "B", add "A", undo: the list is ["B", "A"] | undo takes back the newest copy, leaving ["A", "B"] | medium, not executed | ResultsLog.UndoRemovesOlderCopy | ResultsLog.NewestRemovalUndoesAdd |
| Pr6/Task3/CalculationResults.java:83 | the filter keeps the digits and dots of the whole row, operands included; `Double.parseDouble` then throws `NumberFormatException` inside the analysis task (lines 158-163), which the worker loop does not catch, so the worker thread ends and the tasks queued after it never run (ResultsLog.AnalysisRejectsRow with ResultsLog.ThrowingAnalysisEndsWorker) | a sum row with operands 1.00 and 2.00 and result 3.00 is filtered to "1.002.003.00", which is not a number | the value parsed is the result column only, "3.00" | medium, not executed | ResultsLog.FilteredRowIsNoDecimal | ResultsLog.ResultColumnOfRow |

The same undo behaviour appears in Pr5/Task3/CalculationResults.java:95. With a locale whose decimal separator is a comma, the filter instead joins the digits of all three numbers into one wrong value.

=== FILE: actions.dfy ===
/** Actions (Runnables) over an abstract world: an action that returns normally is
    a transformer of the world, and running it is applying it. Both the action macro
    and the worker queue run their actions one after the other. */
module Actions {

  /** Running actions that return normally, one after the other, in the order
      given. */
  function RunAll<S>(tasks: seq<S -> S>, w: S): S
  {
    if tasks == [] then w else RunAll(tasks[1..], tasks[0](w))
  }

  lemma {:induction false} RunAllAppend<S>(a: seq<S -> S>, b: seq<S -> S>, w: S)
    ensures RunAll(a + b, w) == RunAll(b, RunAll(a, w))
  {
    if a == [] {
      assert a + b == b;
    } else {
      assert (a + b)[1..] == a[1..] + b;
      RunAllAppend(a[1..], b, a[0](w));
    }
  }

  /** Running tasks in order runs every one of them exactly once, in submission
      order: when task i appends tag i to a log, the log gains exactly the tags, in
      their order. */
  lemma {:induction false} RunAllInSubmissionOrder<T>(tasks: seq<seq<T> -> seq<T>>, tags: seq<T>, log: seq<T>)
    requires |tasks| == |tags|
    requires forall i, l :: 0 <= i < |tasks| ==> tasks[i](l) == l + [tags[i]]
    ensures RunAll(tasks, log) == log + tags
  {
    if tasks != [] {
      assert tasks[0](log) == log + [tags[0]];
      RunAllInSubmissionOrder(tasks[1..], tags[1..], log + [tags[0]]);
      assert log + [tags[0]] + tags[1..] == log + tags;
    }
  }
}

=== FILE: computations.dfy ===
/** The command manager of the calculator exercise: every executed command is pushed
    on a history and its result appended to a results list, and undo pops both. The
    arithmetic of the operations is left abstract: a computation command carries the
    value its computation produces. */
module Computations {

  /** A ComputationCommand with its computation. `computed` is the value that
      computation.compute() produces; execute stores it in `result`. */
  class ComputationCommand {
    const computed: real
    var result: real

    constructor (computed: real)
      ensures this.computed == computed && result == 0.0
    {
      this.computed := computed;
      result := 0.0;
    }

    method Execute()
      modifies this
      ensures result == computed
    {
      result := computed;
    }
  }

  /** A command of this program: a computation, or a macro of commands. */
  datatype Command = Computation(command: ComputationCommand) | Macro(commands: seq<Command>)

  /** The computation commands a command consists of. */
  function Objects(cmd: Command): set<ComputationCommand>
    decreases cmd, 1
  {
    match cmd
    case Computation(c) => {c}
    case Macro(cs) => ObjectsAll(cs)
  }

  function ObjectsAll(cs: seq<Command>): (r: set<ComputationCommand>)
    ensures forall i :: 0 <= i < |cs| ==> Objects(cs[i]) <= r
    decreases cs, 0
  {
    if cs == [] then {} else Objects(cs[0]) + ObjectsAll(cs[1..])
  }

  /** What getResult() returns once the command has been executed: the value of a
      computation, and 0 for a macro, which has no single value. */
  function Value(cmd: Command): real
  {
    match cmd
    case Computation(c) => c.computed
    case Macro(_) => 0.0
  }

  /** Command.getResult(). Once a computation command has been executed it returns
      the command's value; a macro always returns 0. */
  function GetResult(cmd: Command): (r: real)
    reads if cmd.Computation? then {cmd.command} else {}
    ensures (cmd.Computation? ==> cmd.command.result == cmd.command.computed) ==> r == Value(cmd)
  {
    match cmd
    case Computation(c) => c.result
    case Macro(_) => 0.0
  }

  /** Command.execute: a macro executes its children in insertion order. Afterwards
      every computation in the command holds its computed value. */
  method Execute(cmd: Command)
    modifies Objects(cmd)
    ensures forall c :: c in Objects(cmd) ==> c.result == c.computed
    decreases cmd
  {
    match cmd
    case Computation(c) =>
      c.Execute();
    case Macro(cs) =>
      ghost var done: set<ComputationCommand> := {};
      for i := 0 to |cs|
        invariant forall k :: 0 <= k < i ==> Objects(cs[k]) <= done
        invariant forall c :: c in done ==> c.result == c.computed
      {
        Execute(cs[i]);
        done := done + Objects(cs[i]);
      }
      ObjectsAllCovered(cs);
  }

  lemma {:induction false} ObjectsAllCovered(cs: seq<Command>)
    ensures forall c :: c in ObjectsAll(cs) ==> exists k :: 0 <= k < |cs| && c in Objects(cs[k])
  {
    if cs != [] {
      ObjectsAllCovered(cs[1..]);
      forall c | c in ObjectsAll(cs[1..]) ensures exists k :: 0 <= k < |cs| && c in Objects(cs[k]) {
        var k :| 0 <= k < |cs[1..]| && c in Objects(cs[1..][k]);
        assert cs[1..][k] == cs[k + 1];
      }
    }
  }

  /** The history and the results list, as values. */
  datatype Ledger = Ledger(history: seq<Command>, results: seq<real>)

  function AfterExecute(l: Ledger, cmd: Command): Ledger
  {
    Ledger(l.history + [cmd], l.results + [Value(cmd)])
  }

  /** undoLastCommand on a ledger whose two stacks have the same length. */
  function AfterUndo(l: Ledger): Ledger
    requires |l.history| == |l.results|
  {
    if l.history == [] then l
    else Ledger(l.history[..|l.history| - 1], l.results[..|l.results| - 1])
  }

  class CommandManager {
    var history: seq<Command>
    var results: seq<real>

    /** The history and the results list always have the same length. */
    predicate Valid()
      reads this
    {
      |history| == |results|
    }

    function Snapshot(): Ledger
      reads this
    {
      Ledger(history, results)
    }

    constructor ()
      ensures Valid() && history == [] && results == []
    {
      history := [];
      results := [];
    }

    /** executeCommand: execute, push on the history, record getResult(). */
    method ExecuteCommand(cmd: Command)
      requires Valid()
      modifies this, Objects(cmd)
      ensures Valid()
      ensures Snapshot() == AfterExecute(old(Snapshot()), cmd)
      ensures forall c :: c in Objects(cmd) ==> c.result == c.computed
    {
      Execute(cmd);
      history := history + [cmd];
      results := results + [GetResult(cmd)];
    }

    /** undoLastCommand: pops the history and drops the last result; reports whether
        there was a command to undo. The command's own undo is not modelled. */
    method UndoLastCommand() returns (undone: bool)
      requires Valid()
      modifies this
      ensures Valid()
      ensures undone == (old(history) != [])
      ensures Snapshot() == AfterUndo(old(Snapshot()))
    {
      if history != [] {
        history := history[..|history| - 1];
        results := results[..|results| - 1];
        undone := true;
      } else {
        undone := false;
      }
    }
  }

  function ExecuteAll(l: Ledger, cmds: seq<Command>): Ledger
    decreases cmds
  {
    if cmds == [] then l else ExecuteAll(AfterExecute(l, cmds[0]), cmds[1..])
  }

  function UndoN(l: Ledger, n: nat): Ledger
    requires |l.history| == |l.results|
    decreases n
  {
    if n == 0 then l else UndoN(AfterUndo(l), n - 1)
  }

  function Values(cmds: seq<Command>): (vs: seq<real>)
    ensures |vs| == |cmds| && forall i :: 0 <= i < |cmds| ==> vs[i] == Value(cmds[i])
  {
    seq(|cmds|, i requires 0 <= i < |cmds| => Value(cmds[i]))
  }

  /** Executing a sequence of commands pushes them in order and records their
      results in the same order. */
  lemma {:induction false} ExecuteAllRecords(l: Ledger, cmds: seq<Command>)
    ensures ExecuteAll(l, cmds) == Ledger(l.history + cmds, l.results + Values(cmds))
    decreases cmds
  {
    if cmds == [] {
      assert l.history + cmds == l.history && l.results + Values(cmds) == l.results;
    } else {
      ExecuteAllRecords(AfterExecute(l, cmds[0]), cmds[1..]);
      assert l.history + [cmds[0]] + cmds[1..] == l.history + cmds;
      assert l.results + [Value(cmds[0])] + Values(cmds[1..]) == l.results + Values(cmds);
    }
  }

  /** Each undo drops the newest entry of both stacks, never more than there are. */
  lemma {:induction false} UndoNTruncates(l: Ledger, n: nat)
    requires |l.history| == |l.results|
    ensures var k := if n <= |l.history| then |l.history| - n else 0;
            UndoN(l, n) == Ledger(l.history[..k], l.results[..k])
    decreases n
  {
    if n == 0 {
      assert l.history[..|l.history|] == l.history && l.results[..|l.results|] == l.results;
    } else if l.history == [] {
      UndoNTruncates(l, n - 1);
    } else {
      UndoNTruncates(AfterUndo(l), n - 1);
    }
  }

  /** After k commands are executed and j <= k undone, the results list is the
      recorded values of the first k - j commands, after what was there before. */
  lemma ExecuteThenUndoKeepsPrefix(l: Ledger, cmds: seq<Command>, j: nat)
    requires |l.history| == |l.results|
    requires j <= |cmds|
    ensures var e := ExecuteAll(l, cmds);
            |e.history| == |e.results| &&
            UndoN(e, j) == Ledger(l.history + cmds[..|cmds| - j], l.results + Values(cmds)[..|cmds| - j])
  {
    ExecuteAllRecords(l, cmds);
    var e := ExecuteAll(l, cmds);
    UndoNTruncates(e, j);
    var k := |e.history| - j;
    assert e.history[..k] == l.history + cmds[..|cmds| - j];
    assert e.results[..k] == l.results + Values(cmds)[..|cmds| - j];
  }
}

=== FILE: java_list.dfy ===
/** The few java.util behaviours the exercises rely on, stated over Dafny sequences.
    A java.util.Stack is a sequence whose top is its last element; an ArrayList is a
    sequence; List.remove(Object) is RemoveFirst below. */
module JavaList {

  datatype Option<T> = None | Some(value: T)

  /** List.remove(Object): deletes the first element equal to x, if there is one.
      For elements of a class type equality is reference identity, which is what
      java.lang.Object.equals gives a class that does not override it. */
  function RemoveFirst<T(==)>(s: seq<T>, x: T): (r: seq<T>)
    ensures x !in s ==> r == s
    ensures x in s ==> |r| == |s| - 1
    ensures x in s ==> (r[..FirstIndex(s, x)] == s[..FirstIndex(s, x)] &&
                        r[FirstIndex(s, x)..] == s[FirstIndex(s, x) + 1..])
    ensures multiset(r) == multiset(s) - multiset{x}
  {
    var i := FirstIndex(s, x);
    if i == |s| then s
    else
      assert s == s[..i] + [x] + s[i + 1..];
      s[..i] + s[i + 1..]
  }

  /** Index of the first element equal to x (List.indexOf), |s| when there is none. */
  function FirstIndex<T(==)>(s: seq<T>, x: T): (i: nat)
    ensures i <= |s|
    ensures i < |s| <==> x in s
    ensures i < |s| ==> s[i] == x
    ensures forall j :: 0 <= j < i ==> s[j] != x
  {
    if s == [] then 0
    else if s[0] == x then 0
    else 1 + FirstIndex(s[1..], x)
  }

  /** Index of the last element equal to x (List.lastIndexOf), -1 when there is none. */
  function LastIndex<T(==)>(s: seq<T>, x: T): (i: int)
    ensures -1 <= i < |s|
    ensures 0 <= i <==> x in s
    ensures 0 <= i ==> s[i] == x
    ensures forall j :: i < j < |s| ==> s[j] != x
  {
    if s == [] then -1
    else if s[|s| - 1] == x then |s| - 1
    else LastIndex(s[..|s| - 1], x)
  }

  /** results.remove(results.lastIndexOf(x)): deletes the last element equal to x,
      if there is one. */
  function RemoveLast<T(==)>(s: seq<T>, x: T): (r: seq<T>)
    ensures x !in s ==> r == s
    ensures x in s ==> |r| == |s| - 1
    ensures x in s ==> r == s[..LastIndex(s, x)] + s[LastIndex(s, x) + 1..]
    ensures multiset(r) == multiset(s) - multiset{x}
  {
    var i := LastIndex(s, x);
    if i < 0 then s
    else
      assert s == s[..i] + [x] + s[i + 1..];
      s[..i] + s[i + 1..]
  }

  /** Removing an element that was just appended, and that occurred nowhere before,
      gives back the sequence it was appended to. */
  lemma {:induction false} RemoveFirstOfAppended<T>(s: seq<T>, x: T)
    requires x !in s
    ensures RemoveFirst(s + [x], x) == s
  {
    if s != [] {
      assert (s + [x])[1..] == s[1..] + [x];
      RemoveFirstOfAppended(s[1..], x);
    }
  }

  /** With an earlier copy present, RemoveFirst removes that copy, not the last one. */
  lemma RemoveFirstTakesEarliest<T>(a: seq<T>, x: T, b: seq<T>)
    requires x !in a
    ensures RemoveFirst(a + [x] + b, x) == a + b
  {
    var s := a + [x] + b;
    assert s[|a|] == x;
    var i := FirstIndex(s, x);
    assert i == |a|;
    assert s[..i] == a && s[i + 1..] == b;
  }
}

=== FILE: person_commands.dfy ===
/** The reversible-command layer over the shared person list: AddPersonCommand,
    MacroCommand and the CommandHistory stack of the two undo exercises. */
module PersonCommands {
  import opened JavaList
  import opened Persons

  /** A command over the shared person list. AddPerson appends its person on execute
      and removes it on undo; Macro runs its children forwards on execute and
      backwards on undo. Every command of a program acts on the one shared list,
      which the operations below take as a parameter. */
  datatype Command = AddPerson(person: Person) | Macro(commands: seq<Command>)

  /** The persons that executing c appends, in order. */
  function Added(c: Command): seq<Person>
    decreases c, 1
  {
    match c
    case AddPerson(p) => [p]
    case Macro(cs) => AddedAll(cs)
  }

  function AddedAll(cs: seq<Command>): seq<Person>
    decreases cs, 0
  {
    if cs == [] then [] else Added(cs[0]) + AddedAll(cs[1..])
  }

  /** The commands that executing c pushes on the history, in order: every
      AddPerson pushes itself; a macro pushes nothing of its own. */
  function Recorded(c: Command): seq<Command>
    decreases c, 1
  {
    match c
    case AddPerson(_) => [c]
    case Macro(cs) => RecordedAll(cs)
  }

  function RecordedAll(cs: seq<Command>): seq<Command>
    decreases cs, 0
  {
    if cs == [] then [] else Recorded(cs[0]) + RecordedAll(cs[1..])
  }

  predicate AllAddPerson(rs: seq<Command>)
  {
    forall i :: 0 <= i < |rs| ==> rs[i].AddPerson?
  }

  /** What execute pushes on the history consists of AddPerson commands only (a
      macro is never pushed), and they add exactly the persons the command adds. */
  lemma {:induction false} RecordedAddsTheSame(c: Command)
    ensures AllAddPerson(Recorded(c))
    ensures AddedAll(Recorded(c)) == Added(c)
    decreases c, 1
  {
    match c
    case AddPerson(_) =>
    case Macro(cs) => RecordedAllAddsTheSame(cs);
  }

  lemma {:induction false} RecordedAllAddsTheSame(cs: seq<Command>)
    ensures AllAddPerson(RecordedAll(cs))
    ensures AddedAll(RecordedAll(cs)) == AddedAll(cs)
    decreases cs, 0
  {
    if cs != [] {
      var head, tail := Recorded(cs[0]), RecordedAll(cs[1..]);
      RecordedAddsTheSame(cs[0]);
      RecordedAllAddsTheSame(cs[1..]);
      AddedAllAppend(head, tail);
      assert RecordedAll(cs) == head + tail;
      forall i | 0 <= i < |head + tail| ensures (head + tail)[i].AddPerson? {
        if i >= |head| { assert (head + tail)[i] == tail[i - |head|]; }
      }
    }
  }

  /** The list that undoing c turns s into. A macro undoes its last child first. */
  function Undone(c: Command, s: seq<Person>): seq<Person>
    decreases c, 1
  {
    match c
    case AddPerson(p) => RemoveFirst(s, p)
    case Macro(cs) => UndoneAll(cs, s)
  }

  function UndoneAll(cs: seq<Command>, s: seq<Person>): seq<Person>
    decreases cs, 0
  {
    if cs == [] then s else Undone(cs[0], UndoneAll(cs[1..], s))
  }

  lemma {:induction false} AddedAllAppend(a: seq<Command>, b: seq<Command>)
    ensures AddedAll(a + b) == AddedAll(a) + AddedAll(b)
  {
    if a == [] {
      assert a + b == b;
    } else {
      assert (a + b)[1..] == a[1..] + b;
      AddedAllAppend(a[1..], b);
    }
  }

  lemma {:induction false} RecordedAllAppend(a: seq<Command>, b: seq<Command>)
    ensures RecordedAll(a + b) == RecordedAll(a) + RecordedAll(b)
  {
    if a == [] {
      assert a + b == b;
    } else {
      assert (a + b)[1..] == a[1..] + b;
      RecordedAllAppend(a[1..], b);
    }
  }

  /** Extending a prefix of a macro's children by one child. */
  lemma PrefixStep(cs: seq<Command>, i: nat)
    requires i < |cs|
    ensures AddedAll(cs[..i + 1]) == AddedAll(cs[..i]) + Added(cs[i])
    ensures RecordedAll(cs[..i + 1]) == RecordedAll(cs[..i]) + Recorded(cs[i])
  {
    assert cs[..i + 1] == cs[..i] + [cs[i]];
    AddedAllAppend(cs[..i], [cs[i]]);
    RecordedAllAppend(cs[..i], [cs[i]]);
    assert [cs[i]][1..] == [];
  }

  /** AddPersonCommand.execute and MacroCommand.execute: the persons are appended to
      the shared list and the AddPerson commands pushed on the history, children of
      a macro one after the other in insertion order. */
  method Execute(c: Command, list: PersonList, history: CommandHistory)
    modifies list, history
    ensures list.persons == old(list.persons) + Added(c)
    ensures history.commands == old(history.commands) + Recorded(c)
    decreases c
  {
    match c
    case AddPerson(p) =>
      list.persons := list.persons + [p];
      history.AddCommand(c);
    case Macro(cs) =>
      for i := 0 to |cs|
        invariant list.persons == old(list.persons) + AddedAll(cs[..i])
        invariant history.commands == old(history.commands) + RecordedAll(cs[..i])
      {
        PrefixStep(cs, i);
        Execute(cs[i], list, history);
      }
      assert cs[..|cs|] == cs;
  }

  /** AddPersonCommand.undo (List.remove: the first occurrence of the same object)
      and MacroCommand.undo (children from the last one back to the first). */
  method Undo(c: Command, list: PersonList)
    modifies list
    ensures list.persons == Undone(c, old(list.persons))
    decreases c
  {
    match c
    case AddPerson(p) =>
      list.persons := RemoveFirst(list.persons, p);
    case Macro(cs) =>
      var i := |cs|;
      while i > 0
        invariant 0 <= i <= |cs|
        invariant list.persons == UndoneAll(cs[i..], old(list.persons))
      {
        i := i - 1;
        assert cs[i..][1..] == cs[i + 1..];
        Undo(cs[i], list);
      }
  }

  /** The history of executed commands: a stack whose top is the last element. */
  class CommandHistory {
    var commands: seq<Command>

    constructor ()
      ensures commands == []
    {
      commands := [];
    }

    method AddCommand(c: Command)
      modifies this
      ensures commands == old(commands) + [c]
    {
      commands := commands + [c];
    }

    /** Pops the top command and undoes it; on an empty history nothing happens. */
    method UndoLastCommand(list: PersonList)
      modifies this, list
      ensures Session(list.persons, commands) == AfterUndoLast(old(Session(list.persons, commands)))
    {
      if commands != [] {
        var top := commands[|commands| - 1];
        commands := commands[..|commands| - 1];
        Undo(top, list);
      }
    }
  }

  /** The persons list and the history together, as values. */
  datatype Session = Session(persons: seq<Person>, history: seq<Command>)

  function AfterExecute(s: Session, c: Command): Session
  {
    Session(s.persons + Added(c), s.history + Recorded(c))
  }

  function AfterUndoLast(s: Session): Session
  {
    if s.history == [] then s
    else Session(Undone(s.history[|s.history| - 1], s.persons), s.history[..|s.history| - 1])
  }

  function UndoLastN(s: Session, n: nat): Session
    decreases n
  {
    if n == 0 then s else UndoLastN(AfterUndoLast(s), n - 1)
  }

  /** No person occurs twice in ps, and none of them is already in s. */
  predicate FreshFor(ps: seq<Person>, s: seq<Person>)
  {
    && (forall i, j :: 0 <= i < j < |ps| ==> ps[i] != ps[j])
    && (forall i :: 0 <= i < |ps| ==> ps[i] !in s)
  }

  lemma FreshForSplit(a: seq<Person>, b: seq<Person>, s: seq<Person>)
    requires FreshFor(a + b, s)
    ensures FreshFor(a, s) && FreshFor(b, s + a)
  {
    forall i, j | 0 <= i < j < |a| ensures a[i] != a[j] {
      assert a[i] == (a + b)[i] && a[j] == (a + b)[j];
    }
    forall i, j | 0 <= i < j < |b| ensures b[i] != b[j] {
      assert b[i] == (a + b)[|a| + i] && b[j] == (a + b)[|a| + j];
    }
    forall i | 0 <= i < |b| ensures b[i] !in s + a {
      assert b[i] == (a + b)[|a| + i];
      forall k | 0 <= k < |a| ensures a[k] != b[i] {
        assert a[k] == (a + b)[k];
      }
    }
    forall i | 0 <= i < |a| ensures a[i] !in s {
      assert a[i] == (a + b)[i];
    }
  }

  /** Undo is the inverse of execute: executing c and then undoing it gives back the
      list it started from, provided the persons c adds are distinct objects not
      already in the list (remove deletes the first occurrence of the object). */
  lemma {:induction false} UndoIsInverse(c: Command, s: seq<Person>)
    requires FreshFor(Added(c), s)
    ensures Undone(c, s + Added(c)) == s
    decreases c, 1
  {
    match c
    case AddPerson(p) =>
      assert Added(c)[0] == p;
      RemoveFirstOfAppended(s, p);
    case Macro(cs) =>
      UndoAllIsInverse(cs, s);
  }

  lemma {:induction false} UndoAllIsInverse(cs: seq<Command>, s: seq<Person>)
    requires FreshFor(AddedAll(cs), s)
    ensures UndoneAll(cs, s + AddedAll(cs)) == s
    decreases cs, 0
  {
    if cs != [] {
      var a, b := Added(cs[0]), AddedAll(cs[1..]);
      assert s + AddedAll(cs) == (s + a) + b;
      FreshForSplit(a, b, s);
      UndoAllIsInverse(cs[1..], s + a);
      UndoIsInverse(cs[0], s);
    }
  }

  /** Executing one AddPersonCommand for a person not yet in the list and undoing the
      last command restores both the list and the history. */
  lemma ExecuteThenUndoLast(s: Session, p: Person)
    requires p !in s.persons
    ensures AfterUndoLast(AfterExecute(s, AddPerson(p))) == s
  {
    RemoveFirstOfAppended(s.persons, p);
    assert (s.history + [AddPerson(p)])[..|s.history|] == s.history;
  }

  /** The history is last-in first-out: after three commands on a fresh history,
      three undos take back the third, the second and the first in that order, and
      a fourth undo changes nothing. */
  lemma HistoryIsLifo(s: Session, p1: Person, p2: Person, p3: Person)
    requires s.history == []
    requires p1 != p2 && p1 != p3 && p2 != p3
    requires p1 !in s.persons && p2 !in s.persons && p3 !in s.persons
    ensures var s1 := AfterExecute(s, AddPerson(p1));
            var s2 := AfterExecute(s1, AddPerson(p2));
            var s3 := AfterExecute(s2, AddPerson(p3));
            && AfterUndoLast(s3) == s2
            && AfterUndoLast(s2) == s1
            && AfterUndoLast(s1) == s
            && AfterUndoLast(s) == s
  {
    var s1 := AfterExecute(s, AddPerson(p1));
    var s2 := AfterExecute(s1, AddPerson(p2));
    assert s1.persons == s.persons + [p1];
    assert s2.persons == s.persons + [p1] + [p2];
    assert p2 !in s1.persons && p3 !in s2.persons;
    ExecuteThenUndoLast(s, p1);
    ExecuteThenUndoLast(s1, p2);
    ExecuteThenUndoLast(s2, p3);
  }

  /** The persons added by a run of pushed AddPerson commands: those of all but the
      last command, then the last command's person. */
  lemma LastRecordedShape(rs: seq<Command>)
    requires rs != [] && AllAddPerson(rs)
    ensures AllAddPerson(rs[..|rs| - 1]) && rs[|rs| - 1].AddPerson?
    ensures AddedAll(rs) == AddedAll(rs[..|rs| - 1]) + [rs[|rs| - 1].person]
  {
    var init, last := rs[..|rs| - 1], rs[|rs| - 1];
    SplitLast(rs);
    assert AllAddPerson(init) by {
      forall i | 0 <= i < |init| ensures init[i].AddPerson? {
        assert init[i] == rs[i];
      }
    }
    assert AddedAll([last]) == [last.person] by {
      assert [last][1..] == [];
    }
    AddedAllAppend(init, [last]);
  }

  /** The last person of such a run is new to the list the others were appended to. */
  lemma LastRecordedSplit(ps: seq<Person>, rs: seq<Command>)
    requires rs != [] && AllAddPerson(rs)
    requires FreshFor(AddedAll(rs), ps)
    ensures AllAddPerson(rs[..|rs| - 1])
    ensures FreshFor(AddedAll(rs[..|rs| - 1]), ps)
    ensures var p := rs[|rs| - 1].person;
            && ps + AddedAll(rs) == ps + AddedAll(rs[..|rs| - 1]) + [p]
            && p !in ps + AddedAll(rs[..|rs| - 1])
  {
    var p := rs[|rs| - 1].person;
    var a := AddedAll(rs[..|rs| - 1]);
    LastRecordedShape(rs);
    assert ps + AddedAll(rs) == (ps + a) + [p];
    FreshForSplit(a, [p], ps);
    assert [p][0] == p;
  }

  lemma UndoLastRecorded(ps: seq<Person>, h: seq<Command>, rs: seq<Command>)
    requires rs != [] && AllAddPerson(rs)
    requires FreshFor(AddedAll(rs), ps)
    ensures AfterUndoLast(Session(ps + AddedAll(rs), h + rs))
         == Session(ps + AddedAll(rs[..|rs| - 1]), h + rs[..|rs| - 1])
  {
    var init, c := rs[..|rs| - 1], rs[|rs| - 1];
    assert c.AddPerson?;
    LastRecordedSplit(ps, rs);
    var before := Session(ps + AddedAll(init), h + init);
    var after := Session(ps + AddedAll(rs), h + rs);
    SplitLast(rs);
    assert after.history == before.history + [c];
    assert after.persons == before.persons + [c.person];
    assert after == AfterExecute(before, AddPerson(c.person));
    ExecuteThenUndoLast(before, c.person);
  }

  lemma SplitLast<T>(s: seq<T>)
    requires s != []
    ensures s == s[..|s| - 1] + [s[|s| - 1]]
  {
  }

  lemma {:induction false} UndoRecordedOneByOne(ps: seq<Person>, h: seq<Command>, rs: seq<Command>)
    requires AllAddPerson(rs)
    requires FreshFor(AddedAll(rs), ps)
    ensures UndoLastN(Session(ps + AddedAll(rs), h + rs), |rs|) == Session(ps, h)
    decreases |rs|
  {
    if rs != [] {
      var init := rs[..|rs| - 1];
      var start := Session(ps + AddedAll(rs), h + rs);
      assert UndoLastN(start, |rs|) == UndoLastN(AfterUndoLast(start), |init|);
      UndoLastRecorded(ps, h, rs);
      LastRecordedSplit(ps, rs);
      UndoRecordedOneByOne(ps, h, init);
    }
  }

  /** Whatever command is executed, macros included, as many undos as it pushed
      commands restore the list and the history, provided the persons it adds are
      distinct objects not already in the list. */
  lemma ExecuteThenUndoAll(s: Session, c: Command)
    requires FreshFor(Added(c), s.persons)
    ensures UndoLastN(AfterExecute(s, c), |Recorded(c)|) == s
  {
    RecordedAddsTheSame(c);
    UndoRecordedOneByOne(s.persons, s.history, Recorded(c));
  }

  /** A macro of AddPersonCommands grows the history by one entry per child: the
      children push themselves, the macro itself is never pushed. */
  lemma {:induction false} MacroPushesItsChildren(cs: seq<Command>)
    requires AllAddPerson(cs)
    ensures Recorded(Macro(cs)) == cs
  {
    if cs != [] {
      MacroPushesItsChildren(cs[1..]);
      assert RecordedAll(cs[1..]) == Recorded(Macro(cs[1..]));
      assert Recorded(cs[0]) == [cs[0]];
      assert cs == [cs[0]] + cs[1..];
    }
  }
}

=== FILE: persons.dfy ===
/** The person records of the two undo exercises and the shared list they live in,
    with the minimum/maximum part of the age analysis. */
module Persons {
  import opened JavaList

  /** A person. The class does not override equals, so two persons are equal exactly
      when they are the same object: a Dafny class, compared by reference. Its fields
      are never reassigned. An Employee is a person that also has a position. */
  class Person {
    const name: string
    const age: int
    const position: Option<string>

    constructor (name: string, age: int, position: Option<string>)
      ensures this.name == name && this.age == age && this.position == position
    {
      this.name := name;
      this.age := age;
      this.position := position;
    }
  }

  /** The shared, in-place mutated list of persons. */
  class PersonList {
    var persons: seq<Person>

    constructor ()
      ensures persons == []
    {
      persons := [];
    }
  }

  /** The smallest age in the list, absent for an empty list (IntStream.min). */
  function MinAge(ps: seq<Person>): (m: Option<int>)
    ensures m.None? <==> ps == []
    ensures m.Some? ==> exists i :: 0 <= i < |ps| && ps[i].age == m.value
    ensures m.Some? ==> forall i :: 0 <= i < |ps| ==> m.value <= ps[i].age
  {
    if ps == [] then None
    else
      match MinAge(ps[1..])
      case None => Some(ps[0].age)
      case Some(rest) =>
        assert forall i :: 1 <= i < |ps| ==> ps[i] == ps[1..][i - 1];
        Some(if ps[0].age <= rest then ps[0].age else rest)
  }

  /** The largest age in the list, absent for an empty list (IntStream.max). */
  function MaxAge(ps: seq<Person>): (m: Option<int>)
    ensures m.None? <==> ps == []
    ensures m.Some? ==> exists i :: 0 <= i < |ps| && ps[i].age == m.value
    ensures m.Some? ==> forall i :: 0 <= i < |ps| ==> ps[i].age <= m.value
  {
    if ps == [] then None
    else
      match MaxAge(ps[1..])
      case None => Some(ps[0].age)
      case Some(rest) =>
        assert forall i :: 1 <= i < |ps| ==> ps[i] == ps[1..][i - 1];
        Some(if rest <= ps[0].age then ps[0].age else rest)
  }
}

=== FILE: results_log.dfy ===
/** The calculation results manager of the two results exercises: formatted result
    strings with a parallel undo stack, the table display, the character filter
    that prepares a result string for number parsing, and the macro of actions. */
module ResultsLog {
  import opened JavaList
  import opened Actions
  import opened Worker

  /** Which of the two messages undoLastOperation prints. */
  datatype UndoReport = Undone | NothingToUndo

  class ResultsManager {
    var results: seq<string>
    var undoStack: seq<string>

    /** Both collections hold the same strings, though not always in the same order. */
    predicate Valid()
      reads this
    {
      multiset(results) == multiset(undoStack)
    }

    constructor ()
      ensures Valid() && results == [] && undoStack == []
    {
      results := [];
      undoStack := [];
    }

    /** addResult: appends to the results and pushes the same string on the stack. */
    method AddResult(result: string)
      requires Valid()
      modifies this
      ensures Valid()
      ensures results == old(results) + [result] && undoStack == old(undoStack) + [result]
    {
      results := results + [result];
      undoStack := undoStack + [result];
    }

    /** undoLastOperation: pops the top string and removes the first equal element
        of the results (List.remove(Object)); on an empty stack nothing changes. */
    method UndoLastOperation() returns (report: UndoReport)
      requires Valid()
      modifies this
      ensures Valid() && |results| == |undoStack|
      ensures report == NothingToUndo <==> old(undoStack) == []
      ensures old(undoStack) == [] ==> results == old(results) && undoStack == old(undoStack)
      ensures old(undoStack) != [] ==>
                var top := old(undoStack)[|old(undoStack)| - 1];
                && undoStack == old(undoStack)[..|old(undoStack)| - 1]
                && results == RemoveFirst(old(results), top)
                && |results| == |old(results)| - 1
    {
      if undoStack != [] {
        var top := undoStack[|undoStack| - 1];
        assert undoStack == undoStack[..|undoStack| - 1] + [top];
        undoStack := undoStack[..|undoStack| - 1];
        assert top in multiset(results);
        results := RemoveFirst(results, top);
        report := Undone;
      } else {
        report := NothingToUndo;
      }
      assert |results| == |multiset(results)| && |undoStack| == |multiset(undoStack)|;
    }

    /** displayResults of the table variant: the lines it prints. */
    method DisplayTable() returns (lines: seq<string>)
      ensures results == [] ==> lines == [NoResults]
      ensures results != [] ==>
                && |lines| == |results| + 4
                && lines[..3] == [Border, Header, Border]
                && lines[3..3 + |results|] == results
                && lines[|lines| - 1] == Border
    {
      if results == [] {
        lines := [NoResults];
        return;
      }
      lines := [Border, Header, Border];
      for i := 0 to |results|
        invariant |lines| == 3 + i
        invariant lines[..3] == [Border, Header, Border]
        invariant lines[3..] == results[..i]
      {
        lines := lines + [results[i]];
      }
      assert results[..|results|] == results;
      lines := lines + [Border];
    }

    /** displayResults of the threaded variant: every result, in order. */
    method DisplayPlain() returns (lines: seq<string>)
      ensures lines == results
    {
      lines := [];
      for i := 0 to |results|
        invariant lines == results[..i]
      {
        lines := lines + [results[i]];
      }
      assert results[..|results|] == results;
    }
  }

  const NoResults := "Немає результатів."
  const Border := "+------------+----------+----------+----------+"
  const Header := "| Операція   |    A     |    B     |  Результат  |"

  /** The characters the pattern [^0-9.]+ does not remove. */
  predicate IsValueChar(c: char)
  {
    '0' <= c <= '9' || c == '.'
  }

  /** replaceAll("[^0-9.]+", ""): deletes every run of other characters, so what
      is left is the digits and dots, in their order, each as often as it occurs. */
  function KeepValueChars(s: string): (r: string)
    ensures |r| <= |s|
    ensures forall i :: 0 <= i < |r| ==> IsValueChar(r[i])
    ensures forall c :: IsValueChar(c) ==> multiset(r)[c] == multiset(s)[c]
    ensures (forall i :: 0 <= i < |s| ==> IsValueChar(s[i])) ==> r == s
  {
    if s == [] then []
    else
      assert s == [s[0]] + s[1..];
      (if IsValueChar(s[0]) then [s[0]] else []) + KeepValueChars(s[1..])
  }

  /** The filter keeps the order: filtering a concatenation concatenates the
      filtered parts. */
  lemma {:induction false} KeepValueCharsAppend(a: string, b: string)
    ensures KeepValueChars(a + b) == KeepValueChars(a) + KeepValueChars(b)
  {
    if a == [] {
      assert a + b == b;
    } else {
      assert (a + b)[0] == a[0] && (a + b)[1..] == a[1..] + b;
      KeepValueCharsAppend(a[1..], b);
    }
  }

  /** String.trim: drops the characters up to U+0020 at both ends, and only those. */
  function Trim(s: string): (r: string)
    ensures r == [] || (r[0] > ' ' && r[|r| - 1] > ' ')
    ensures exists i, j :: 0 <= i <= j <= |s| && r == s[i..j]
                           && (forall k :: 0 <= k < i ==> s[k] <= ' ')
                           && (forall k :: j <= k < |s| ==> s[k] <= ' ')
    ensures (forall i :: 0 <= i < |s| ==> s[i] > ' ') ==> r == s
  {
    var t := TrimStart(s);
    var r := TrimEnd(t);
    TrimIsSlice(s, t, r);
    var i := |s| - |t|;
    assert 0 <= i <= i + |r| <= |s| && r == s[i..i + |r|];
    r
  }

  lemma TrimIsSlice(s: string, t: string, r: string)
    requires |t| <= |s| && t == s[|s| - |t|..] && forall k :: 0 <= k < |s| - |t| ==> s[k] <= ' '
    requires |r| <= |t| && r == t[..|r|] && forall k :: |r| <= k < |t| ==> t[k] <= ' '
    ensures var i := |s| - |t|;
            && r == s[i..i + |r|]
            && (forall k :: 0 <= k < i ==> s[k] <= ' ')
            && (forall k :: i + |r| <= k < |s| ==> s[k] <= ' ')
  {
    var i := |s| - |t|;
    forall k | i + |r| <= k < |s| ensures s[k] <= ' ' {
      assert s[k] == t[k - i];
    }
  }

  /** TrimStart and TrimEnd are the two halves of String.trim. */
  function TrimStart(s: string): (r: string)
    ensures r == [] || r[0] > ' '
    ensures |r| <= |s| && r == s[|s| - |r|..]
    ensures forall k :: 0 <= k < |s| - |r| ==> s[k] <= ' '
    ensures (s == [] || s[0] > ' ') ==> r == s
  {
    if s != [] && s[0] <= ' ' then
      assert forall k :: 1 <= k < |s| ==> s[k] == s[1..][k - 1];
      TrimStart(s[1..])
    else s
  }

  function TrimEnd(s: string): (r: string)
    ensures r == [] || r[|r| - 1] > ' '
    ensures |r| <= |s| && r == s[..|r|]
    ensures forall k :: |r| <= k < |s| ==> s[k] <= ' '
    ensures (s == [] || s[|s| - 1] > ' ') ==> r == s
  {
    if s != [] && s[|s| - 1] <= ' ' then TrimEnd(s[..|s| - 1]) else s
  }

  /** The text handed to Double.parseDouble for one result: filtered, then trimmed.
      Trimming has nothing left to remove. */
  function ValueText(result: string): (r: string)
    ensures r == KeepValueChars(result)
  {
    Trim(KeepValueChars(result))
  }

  /** A row of the threaded variant, String.format("| %-10s | %8.2f | %8.2f | %8.2f |"):
      the padded operation name, the two operands and the result, already formatted. */
  function FormatRow(name: string, a: string, b: string, c: string): string
  {
    "| " + name + " | " + a + " | " + b + " | " + c + " |"
  }

  /** What Double.parseDouble accepts among strings made only of digits and dots:
      at least one digit and at most one dot. */
  predicate ParsesAsDecimal(t: string)
  {
    && (forall i :: 0 <= i < |t| ==> IsValueChar(t[i]))
    && (exists i :: 0 <= i < |t| && '0' <= t[i] <= '9')
    && multiset(t)['.'] <= 1
  }

  /** getResultValues as written: the filter keeps the digits and dots of all three
      numbers of a row, so with a dot as decimal separator the text holds at least
      three dots and is not a number. */
  lemma FilteredRowIsNoDecimal(name: string, a: string, b: string, c: string)
    requires '.' in a && '.' in b && '.' in c
    ensures multiset(ValueText(FormatRow(name, a, b, c)))['.'] >= 3
    ensures !ParsesAsDecimal(ValueText(FormatRow(name, a, b, c)))
  {
    var x1 := "| " + name + " | " + a;
    var x2 := x1 + " | " + b;
    var row := x2 + " | " + c + " |";
    assert row == FormatRow(name, a, b, c);
    assert multiset(x1)['.'] >= multiset(a)['.'] >= 1 by {
      assert multiset(x1) == multiset("| " + name + " | ") + multiset(a);
    }
    assert multiset(x2)['.'] >= multiset(x1)['.'] + multiset(b)['.'] by {
      assert multiset(x2) == multiset(x1 + " | ") + multiset(b);
    }
    assert multiset(row)['.'] >= multiset(x2)['.'] + multiset(c)['.'] by {
      assert multiset(row) == multiset(x2 + " | ") + multiset(c) + multiset(" |");
    }
    assert multiset(b)['.'] >= 1 && multiset(c)['.'] >= 1;
    assert multiset(ValueText(row))['.'] == multiset(row)['.'];
  }

  /** The analysis task of the threaded results manager, on the results list: it
      returns when Double.parseDouble accepts the filtered text of every result, and
      otherwise the NumberFormatException escapes from run(). */
  function Analysis(results: seq<string>): Option<seq<string>>
  {
    if forall i :: 0 <= i < |results| ==> ParsesAsDecimal(ValueText(results[i]))
    then Some(results) else None
  }

  /** The task that records one more formatted result. */
  function AddRow(row: string): Task<seq<string>>
  {
    results => Some(results + [row])
  }

  /** What the analysis and the add do to the list when they return: nothing, and
      appending the row. */
  function Effects(row: string): seq<seq<string> -> seq<string>>
  {
    [results => results, results => results + [row]]
  }

  /** An analysis that returns on the empty list, then an add, both return when
      queued on an empty list. */
  lemma AnalysisThenAddReturn(analysis: Task<seq<string>>, row: string, rest: seq<Task<seq<string>>>)
    requires analysis([]) == Some([])
    ensures ReturnsOnRun([analysis, AddRow(row)] + rest, Effects(row), [])
  {
    var queue := [analysis, AddRow(row)] + rest;
    var fs := Effects(row);
    assert RunAll(fs[..0], []) == [] by { assert fs[..0] == []; }
    assert RunAll(fs[..1], []) == [] by { assert fs[..1] == [fs[0]]; }
    assert queue[0]([]) == Some(fs[0]([]));
    assert queue[1]([]) == Some(fs[1]([]));
  }

  /** An analysis that returns on an empty list but throws once the row has been
      added: queued as analysis, add, analysis, add, the worker thread ends at the
      second analysis, stopped or not, and the add behind it never runs. */
  lemma ThrowingAnalysisEndsWorker(analysis: Task<seq<string>>, row: string, stopped: bool)
    requires analysis([]) == Some([]) && analysis([row]) == None
    ensures var w := WorkerState([analysis, AddRow(row), analysis, AddRow(row)], stopped, false, []);
            PollSteps(w, |w.queue|) == WorkerState([AddRow(row)], stopped, true, [row])
  {
    var queue := [analysis, AddRow(row), analysis, AddRow(row)];
    var fs := Effects(row);
    assert ReturnsOnRun(queue, fs, []) by {
      AnalysisThenAddReturn(analysis, row, [analysis, AddRow(row)]);
      assert queue == [analysis, AddRow(row)] + [analysis, AddRow(row)];
    }
    assert RunAll(fs, []) == [row] by {
      assert RunAll(fs[1..], fs[0]([])) == RunAll([], [row]);
    }
    assert queue[|fs| + 1..] == [AddRow(row)];
    PollWorkerStopsAtThrow(WorkerState(queue, stopped, false, []), fs);
  }

  /** The analysis task returns on an empty list and throws on a list holding a
      formatted row with dotted numbers, so it meets the requirements of
      ThrowingAnalysisEndsWorker for that row. */
  lemma AnalysisRejectsRow(name: string, a: string, b: string, c: string)
    requires '.' in a && '.' in b && '.' in c
    ensures Analysis([]) == Some([])
    ensures Analysis([FormatRow(name, a, b, c)]) == None
  {
    var row := FormatRow(name, a, b, c);
    FilteredRowIsNoDecimal(name, a, b, c);
    assert !ParsesAsDecimal(ValueText([row][0]));
  }

  /** The text after the last occurrence of sep; all of s when there is none. */
  function AfterLast(s: string, sep: char): (r: string)
    ensures sep !in r
  {
    if s == [] then []
    else if s[|s| - 1] == sep then []
    else AfterLast(s[..|s| - 1], sep) + [s[|s| - 1]]
  }

  /** The text before the last occurrence of sep; empty when there is none. */
  function BeforeLast(s: string, sep: char): string
  {
    if s == [] then []
    else if s[|s| - 1] == sep then s[..|s| - 1]
    else BeforeLast(s[..|s| - 1], sep)
  }

  lemma {:induction false} AfterLastSplit(x: string, sep: char, z: string)
    requires sep !in z
    ensures AfterLast(x + [sep] + z, sep) == z
    decreases |z|
  {
    var s := x + [sep] + z;
    if z == [] {
      assert s[|s| - 1] == sep;
    } else {
      var z' := z[..|z| - 1];
      assert s[..|s| - 1] == x + [sep] + z';
      AfterLastSplit(x, sep, z');
      assert z == z' + [z[|z| - 1]];
    }
  }

  lemma {:induction false} TrimStartSpaces(pad: string, t: string)
    requires forall i :: 0 <= i < |pad| ==> pad[i] == ' '
    requires t != [] && t[0] > ' '
    ensures TrimStart(pad + t) == t
    decreases |pad|
  {
    if pad == [] {
      assert pad + t == t;
    } else {
      assert (pad + t)[0] == ' ' && (pad + t)[1..] == pad[1..] + t;
      TrimStartSpaces(pad[1..], t);
    }
  }

  /** The evidently intended value text: the result column, the field between the
      last two separators, trimmed. */
  function ResultColumnText(row: string): string
  {
    Trim(AfterLast(BeforeLast(row, '|'), '|'))
  }

  lemma ResultColumnOfFields(x: string, z: string)
    requires '|' !in z
    ensures ResultColumnText(x + ['|'] + z + ['|']) == Trim(z)
  {
    var row := x + ['|'] + z + ['|'];
    assert row[|row| - 1] == '|' && row[..|row| - 1] == x + ['|'] + z;
    AfterLastSplit(x, '|', z);
  }

  lemma TrimEndSpace(lit: string)
    requires lit != [] && lit[|lit| - 1] > ' '
    ensures TrimEnd(lit + " ") == lit
  {
    assert (lit + " ")[..|lit|] == lit;
  }

  lemma TrimPadded(pad: string, lit: string)
    requires forall i :: 0 <= i < |pad| ==> pad[i] == ' '
    requires lit != [] && forall i :: 0 <= i < |lit| ==> lit[i] > ' '
    ensures Trim(" " + pad + lit + " ") == lit
  {
    var inner := lit + " ";
    var str := " " + pad + lit + " ";
    assert str == (" " + pad) + inner;
    TrimStartSpaces(" " + pad, inner);
    TrimEndSpace(lit);
  }

  /** For a row whose result field is a right-aligned number, the result column text
      is exactly that number, sign included. */
  lemma ResultColumnOfRow(name: string, a: string, b: string, pad: string, lit: string)
    requires forall i :: 0 <= i < |pad| ==> pad[i] == ' '
    requires lit != [] && forall i :: 0 <= i < |lit| ==> lit[i] > ' ' && lit[i] != '|'
    ensures ResultColumnText(FormatRow(name, a, b, pad + lit)) == lit
  {
    var x := "| " + name + " | " + a + " | " + b + " ";
    var z := " " + pad + lit + " ";
    assert FormatRow(name, a, b, pad + lit) == x + ['|'] + z + ['|'];
    assert '|' !in z by {
      assert z == [' '] + pad + lit + [' '];
      assert '|' !in pad && '|' !in lit;
    }
    ResultColumnOfFields(x, z);
    TrimPadded(pad, lit);
  }

  /** undoLastOperation as written, with two equal results separated by another one:
      the older copy goes, so the list is not what it was before the last add. */
  lemma UndoRemovesOlderCopy(x: string, y: string)
    requires x != y
    ensures RemoveFirst([x, y] + [x], x) == [y, x]
    ensures RemoveFirst([x, y] + [x], x) != [x, y]
  {
    var s := [x, y] + [x];
    assert s == [] + [x] + [y, x];
    RemoveFirstTakesEarliest([], x, [y, x]);
    assert [] + [y, x] == [y, x];
    assert [y, x][0] != [x, y][0];
  }

  /** Removing the newest copy undoes the last add, whatever came before. */
  lemma NewestRemovalUndoesAdd<T>(s: seq<T>, x: T)
    ensures RemoveLast(s + [x], x) == s
  {
    assert (s + [x])[..|s|] == s;
  }

  /** The MacroCommand of actions: added actions are run in insertion order. */
  class ActionMacro<S> {
    var commands: seq<S -> S>

    constructor ()
      ensures commands == []
    {
      commands := [];
    }

    method AddCommand(command: S -> S)
      modifies this
      ensures commands == old(commands) + [command]
    {
      commands := commands + [command];
    }

    method Execute(w: S) returns (r: S)
      ensures r == RunAll(commands, w)
    {
      r := w;
      for i := 0 to |commands|
        invariant r == RunAll(commands[..i], w)
      {
        RunAllAppend(commands[..i], [commands[i]], w);
        assert commands[..i + 1] == commands[..i] + [commands[i]];
        r := commands[i](r);
      }
      assert commands[..|commands|] == commands;
    }
  }
}

=== FILE: worker.dfy ===
/** The single background worker of the two threaded exercises, seen sequentially:
    a FIFO queue of tasks, a stop flag, and the world the tasks act on. A task (a
    Runnable) either returns normally with the next world or throws an unchecked
    exception; each task runs to completion before the next one is taken. */
module Worker {
  import opened JavaList
  import opened Actions

  /** A queued task as the worker loop runs it: Some(next world) when run() returns,
      None when it throws an unchecked exception. Neither loop catches those (only
      InterruptedException), so the exception ends the worker thread. */
  type Task<!S> = S -> Option<S>

  /** Runs queued tasks from the head until one throws: the tasks never taken, the
      world after the last task that returned, and whether a task threw. */
  function RunQueue<S>(tasks: seq<Task<S>>, w: S): (r: (seq<Task<S>>, S, bool))
    ensures |r.0| <= |tasks| && r.0 == tasks[|tasks| - |r.0|..]
    ensures !r.2 ==> r.0 == []
  {
    if tasks == [] then ([], w, false)
    else match tasks[0](w)
      case None => (tasks[1..], w, true)
      case Some(next) => RunQueue(tasks[1..], next)
  }

  /** The first |fs| tasks return normally on the worlds this run reaches: task i,
      run on the world the tasks before it left, returns what fs[i] makes of that
      world. On other worlds a task may throw. */
  ghost predicate ReturnsOnRun<S>(tasks: seq<Task<S>>, fs: seq<S -> S>, w: S)
  {
    && |fs| <= |tasks|
    && forall i :: 0 <= i < |fs| ==> tasks[i](RunAll(fs[..i], w)) == Some(fs[i](RunAll(fs[..i], w)))
  }

  /** The head task returns on the starting world, and the rest return on the worlds
      their own run reaches from the world it leaves. */
  lemma ReturnsOnRunTail<S>(tasks: seq<Task<S>>, fs: seq<S -> S>, w: S)
    requires fs != [] && ReturnsOnRun(tasks, fs, w)
    ensures tasks[0](w) == Some(fs[0](w))
    ensures ReturnsOnRun(tasks[1..], fs[1..], fs[0](w))
  {
    assert fs[..0] == [];
    forall i | 0 <= i < |fs| - 1
      ensures tasks[1..][i](RunAll(fs[1..][..i], fs[0](w))) == Some(fs[1..][i](RunAll(fs[1..][..i], fs[0](w))))
    {
      assert fs[..i + 1][1..] == fs[1..][..i];
      assert RunAll(fs[..i + 1], w) == RunAll(fs[1..][..i], fs[0](w));
    }
  }

  /** Tasks that all return normally on the worlds they meet: the whole queue runs,
      in order, exactly as RunAll applies the corresponding transformers. */
  lemma {:induction false} RunQueueWhenAllReturn<S>(tasks: seq<Task<S>>, fs: seq<S -> S>, w: S)
    requires |tasks| == |fs| && ReturnsOnRun(tasks, fs, w)
    ensures RunQueue(tasks, w) == ([], RunAll(fs, w), false)
  {
    if tasks != [] {
      ReturnsOnRunTail(tasks, fs, w);
      RunQueueWhenAllReturn(tasks[1..], fs[1..], fs[0](w));
    }
  }

  /** A task that throws stops the run there: the tasks before it have run, the
      world is what they left, and every task after it stays unrun. */
  lemma {:induction false} RunQueueStopsAtThrow<S>(tasks: seq<Task<S>>, fs: seq<S -> S>, w: S)
    requires |fs| < |tasks| && ReturnsOnRun(tasks, fs, w)
    requires tasks[|fs|](RunAll(fs, w)) == None
    ensures RunQueue(tasks, w) == (tasks[|fs| + 1..], RunAll(fs, w), true)
  {
    if fs != [] {
      ReturnsOnRunTail(tasks, fs, w);
      RunQueueStopsAtThrow(tasks[1..], fs[1..], fs[0](w));
      assert tasks[1..][|fs[1..]| + 1..] == tasks[|fs| + 1..];
    }
  }

  /** What one turn of a worker loop did. Waited: the queue was empty, so take()
      blocked or poll() timed out. Threw: the task taken threw, ending the thread. */
  datatype Outcome = Ran | Threw | Waited | Exited

  /** crashed: the thread has ended because a task threw. */
  datatype WorkerState<!S> = WorkerState(queue: seq<Task<S>>, stopped: bool, crashed: bool, world: S)

  /** Taking the head task and running it: its exception, if any, ends the thread. */
  function RunHead<S>(w: WorkerState<S>): (r: (WorkerState<S>, Outcome))
    requires w.queue != [] && !w.crashed
    ensures r.1 == Ran <==> w.queue[0](w.world).Some?
    ensures r.1 == Ran || r.1 == Threw
    ensures r.0.queue == w.queue[1..] && r.0.stopped == w.stopped
    ensures r.1 == Ran ==> !r.0.crashed && r.0.world == w.queue[0](w.world).value
    ensures r.1 == Threw ==> r.0.crashed && r.0.world == w.world
  {
    match w.queue[0](w.world)
    case None => (w.(queue := w.queue[1..], crashed := true), Threw)
    case Some(next) => (w.(queue := w.queue[1..], world := next), Ran)
  }

  /** One turn of the loop `while (!isStopped) { take(); run(); }`: the stop flag
      is checked before each task, so once it is set no further task starts. */
  function TakeStep<S>(w: WorkerState<S>): (r: (WorkerState<S>, Outcome))
    ensures r.1 == Exited <==> w.stopped || w.crashed
    ensures r.1 == Waited ==> r.0 == w
    ensures r.1 == Exited ==> r.0 == w
    ensures r.1 == Ran || r.1 == Threw <==> !w.stopped && !w.crashed && w.queue != []
    ensures r.1 == Ran || r.1 == Threw ==> w.queue != [] && r == RunHead(w)
  {
    if w.stopped || w.crashed then (w, Exited)
    else if w.queue == [] then (w, Waited)
    else RunHead(w)
  }

  /** One turn of the loop `while (!isStopped || !queue.isEmpty()) { poll(1s); run
      the task if there was one }`: it ends only when stopped and empty, or when a
      task has thrown. */
  function PollStep<S>(w: WorkerState<S>): (r: (WorkerState<S>, Outcome))
    ensures r.1 == Exited <==> w.crashed || (w.stopped && w.queue == [])
    ensures w.crashed || w.queue == [] ==> r.0 == w
    ensures r.1 == Ran || r.1 == Threw <==> !w.crashed && w.queue != []
    ensures r.1 == Ran || r.1 == Threw ==> w.queue != [] && r == RunHead(w)
  {
    if w.crashed then (w, Exited)
    else if w.queue == [] then (w, if w.stopped then Exited else Waited)
    else RunHead(w)
  }

  function TakeSteps<S>(w: WorkerState<S>, n: nat): WorkerState<S>
    decreases n
  {
    if n == 0 then w else TakeSteps(TakeStep(w).0, n - 1)
  }

  function PollSteps<S>(w: WorkerState<S>, n: nat): WorkerState<S>
    decreases n
  {
    if n == 0 then w else PollSteps(PollStep(w).0, n - 1)
  }

  /** No drain: once the take-based worker is stopped (or its thread has ended),
      however many turns follow, no queued task runs and the queue is left as it was. */
  lemma {:induction false} StoppedTakeWorkerRunsNothing<S>(w: WorkerState<S>, n: nat)
    requires w.stopped || w.crashed
    ensures TakeSteps(w, n) == w
  {
    if n > 0 {
      StoppedTakeWorkerRunsNothing(w, n - 1);
    }
  }

  /** Once a task has thrown, the poll-based worker runs nothing more, stopped or
      not: the tasks still queued are never run. */
  lemma {:induction false} CrashedPollWorkerRunsNothing<S>(w: WorkerState<S>, n: nat)
    requires w.crashed
    ensures PollSteps(w, n) == w
  {
    if n > 0 {
      CrashedPollWorkerRunsNothing(w, n - 1);
    }
  }

  /** A running take-based worker runs the queued tasks from the head, in submission
      order, one per turn, until the queue is empty or a task throws. */
  lemma {:induction false} TakeWorkerRunsInOrder<S>(w: WorkerState<S>)
    requires !w.stopped && !w.crashed
    ensures var r := RunQueue(w.queue, w.world);
            TakeSteps(w, |w.queue|) == WorkerState(r.0, false, r.2, r.1)
    decreases |w.queue|
  {
    if w.queue != [] {
      var next := TakeStep(w).0;
      if next.crashed {
        StoppedTakeWorkerRunsNothing(next, |w.queue| - 1);
      } else {
        TakeWorkerRunsInOrder(next);
      }
    }
  }

  /** Drain: the poll-based worker runs the queued tasks, in submission order,
      whether or not it has been stopped, until the queue is empty or a task throws;
      a stopped or crashed worker then leaves its loop. */
  lemma {:induction false} PollWorkerDrains<S>(w: WorkerState<S>)
    requires !w.crashed
    ensures var r := RunQueue(w.queue, w.world);
            PollSteps(w, |w.queue|) == WorkerState(r.0, w.stopped, r.2, r.1)
    ensures w.stopped || RunQueue(w.queue, w.world).2 ==> PollStep(PollSteps(w, |w.queue|)).1 == Exited
    decreases |w.queue|
  {
    if w.queue != [] {
      var next := PollStep(w).0;
      if next.crashed {
        CrashedPollWorkerRunsNothing(next, |w.queue| - 1);
      } else {
        PollWorkerDrains(next);
      }
    }
  }

  /** The results worker, when no task throws on the worlds it meets, empties its queue applying every task
      in submission order, stopped or not. */
  lemma PollWorkerDrainsAll<S>(w: WorkerState<S>, fs: seq<S -> S>)
    requires !w.crashed && |w.queue| == |fs| && ReturnsOnRun(w.queue, fs, w.world)
    ensures PollSteps(w, |w.queue|) == WorkerState([], w.stopped, false, RunAll(fs, w.world))
  {
    PollWorkerDrains(w);
    RunQueueWhenAllReturn(w.queue, fs, w.world);
  }

  /** The results worker, even once stopped, does not drain past a task that throws:
      its thread ends there, and the tasks queued behind it never run. */
  lemma PollWorkerStopsAtThrow<S>(w: WorkerState<S>, fs: seq<S -> S>)
    requires !w.crashed && |fs| < |w.queue| && ReturnsOnRun(w.queue, fs, w.world)
    requires w.queue[|fs|](RunAll(fs, w.world)) == None
    ensures PollSteps(w, |w.queue|) == WorkerState(w.queue[|fs| + 1..], w.stopped, true, RunAll(fs, w.world))
    ensures PollStep(PollSteps(w, |w.queue|)).1 == Exited
  {
    PollWorkerDrains(w);
    RunQueueStopsAtThrow(w.queue, fs, w.world);
  }

  /** The worker of the person registry: producers add tasks to the shared queue,
      and the loop takes them while the stop flag is clear. */
  class TakeWorker<S> {
    var queue: seq<Task<S>>
    var stopped: bool
    var crashed: bool
    var world: S

    function State(): WorkerState<S>
      reads this
    {
      WorkerState(queue, stopped, crashed, world)
    }

    constructor (world: S)
      ensures State() == WorkerState([], false, false, world)
    {
      queue := [];
      stopped := false;
      crashed := false;
      this.world := world;
    }

    /** BlockingQueue.add on the unbounded queue: appends at the tail. */
    method Submit(task: Task<S>)
      modifies this
      ensures State() == old(State()).(queue := old(queue) + [task])
    {
      queue := queue + [task];
    }

    /** stopWorker: sets the flag; the interrupt only wakes a blocked take(). */
    method StopWorker()
      modifies this
      ensures State() == old(State()).(stopped := true)
    {
      stopped := true;
    }

    /** One turn of the loop. */
    method Iterate() returns (outcome: Outcome)
      modifies this
      ensures (State(), outcome) == TakeStep(old(State()))
    {
      if stopped || crashed {
        outcome := Exited;
      } else if queue == [] {
        outcome := Waited;
      } else {
        var task := queue[0];
        queue := queue[1..];
        var result := task(world);
        if result.None? {
          crashed := true;
          outcome := Threw;
        } else {
          world := result.value;
          outcome := Ran;
        }
      }
    }

    /** The loop, up to the point where it leaves (exited: stopped, or ended by a
        task that threw) or would block in take() until a producer submits more. */
    method Run() returns (exited: bool)
      modifies this
      ensures exited == (stopped || crashed) && stopped == old(stopped)
      ensures old(stopped) || old(crashed) ==> State() == old(State())
      ensures !old(stopped) && !old(crashed) ==>
                (queue, world, crashed) == RunQueue(old(queue), old(world))
    {
      while !stopped && !crashed && queue != []
        invariant stopped == old(stopped)
        invariant old(stopped) || old(crashed) ==> State() == old(State())
        invariant !old(stopped) && !old(crashed) && crashed ==>
                    (queue, world, true) == RunQueue(old(queue), old(world))
        invariant !old(stopped) && !old(crashed) && !crashed ==>
                    RunQueue(queue, world) == RunQueue(old(queue), old(world))
        decreases |queue|
      {
        var outcome := Iterate();
      }
      exited := stopped || crashed;
    }
  }

  /** The worker of the results manager: it owns its queue, and its loop keeps
      polling until it is stopped and the queue is empty. */
  class PollWorker<S> {
    var queue: seq<Task<S>>
    var stopped: bool
    var crashed: bool
    var world: S

    function State(): WorkerState<S>
      reads this
    {
      WorkerState(queue, stopped, crashed, world)
    }

    constructor (world: S)
      ensures State() == WorkerState([], false, false, world)
    {
      queue := [];
      stopped := false;
      crashed := false;
      this.world := world;
    }

    /** addTask: put on the unbounded queue, at the tail. */
    method AddTask(task: Task<S>)
      modifies this
      ensures State() == old(State()).(queue := old(queue) + [task])
    {
      queue := queue + [task];
    }

    /** stopWorker: only sets the flag. */
    method StopWorker()
      modifies this
      ensures State() == old(State()).(stopped := true)
    {
      stopped := true;
    }

    /** One turn of the loop; an empty queue makes the poll time out. */
    method Iterate() returns (outcome: Outcome)
      modifies this
      ensures (State(), outcome) == PollStep(old(State()))
    {
      if crashed {
        outcome := Exited;
      } else if queue == [] {
        outcome := if stopped then Exited else Waited;
      } else {
        var task := queue[0];
        queue := queue[1..];
        var result := task(world);
        if result.None? {
          crashed := true;
          outcome := Threw;
        } else {
          world := result.value;
          outcome := Ran;
        }
      }
    }

    /** The loop, up to the point where it leaves (exited) or keeps timing out on an
        empty queue until a producer adds more. Every queued task runs first, unless
        one throws, which ends the thread with the rest still queued. */
    method Run() returns (exited: bool)
      modifies this
      ensures exited == (stopped || crashed) && stopped == old(stopped)
      ensures old(crashed) ==> State() == old(State())
      ensures !old(crashed) ==> (queue, world, crashed) == RunQueue(old(queue), old(world))
    {
      while !crashed && queue != []
        invariant stopped == old(stopped)
        invariant old(crashed) ==> State() == old(State())
        invariant !old(crashed) && crashed ==> (queue, world, true) == RunQueue(old(queue), old(world))
        invariant !old(crashed) && !crashed ==> RunQueue(queue, world) == RunQueue(old(queue), old(world))
        decreases |queue|
      {
        var outcome := Iterate();
      }
      exited := stopped || crashed;
    }
  }
}
